=== FILE: README.md ===
# Food explorer: a Dafny model of the graph state machine

The food explorer is a single React component (`src/App.tsx`). It shows a
node-link graph over TheMealDB recipe API. When the page loads there is one root node,
`explore-categories`. Clicking it adds one node per recipe category. Clicking a
category node adds one node per meal of that category. Clicking a meal node
opens a sidebar with that meal's details, ingredients or tags.

This project models the component's state and its click handlers:

- `options.dfy`: `Option`. `None` stands for `null`/`undefined`, and for a
  response that failed or had no usable list.
- `strings.dfy` (module `Strings`): the JavaScript string operations the
  component uses. These are `startsWith`, `replace` with a string pattern
  (first occurrence only), `split` on one character and `join`. It also has
  a reference definition that replaces a character, with the lemma that
  splitting and joining is that replacement.
- `graph.dfy` (module `Graph`): the node and edge records and the rows of the
  two list responses. It has the node and edge lists built from those rows
  (`Array.prototype.map`) and the filters the updaters apply
  (`Array.prototype.filter`). The two expansion handlers are functions on a
  `GraphState` value, with their properties and the invariant they keep
  (`WellShaped`).
- `dispatch.dfy` (module `Dispatch`): `onNodeClick`'s routing by id prefix.
- `sidebar.dfy` (module `Sidebar`): the meal detail record and the three
  views. This covers the ingredient list, the tag text, the blocks each view
  renders and the whole sidebar.
- `explorer.dfy` (module `Explorer`): the class `ExplorerState`. Its fields
  are the component's five state variables: `nodes`, `edges`, `selected`,
  `categoriesLoaded` and `view`. Each handler is a method that changes those
  fields, and each HTTP response is a parameter of the method that consumes
  it. Each graph handler's `ensures` ties the new state to the `Graph`
  function of the old state and keeps `Valid()`. The method
  `ExploreSession` is a client: using only the contracts, it shows that a
  second root click does nothing and that a second click on the same
  category does nothing. It also shows that opening a meal and closing the
  sidebar leaves the graph as it was.

Behaviour of the code that the model keeps as written:

- A meal expansion (a click on a category node) removes every node whose id
  starts with `meal-`, so
  meal nodes from any earlier category go too. It removes only the edges out
  of `cat-<category>`. The edges to an earlier category's meals therefore
  stay while their target nodes are gone
  (`Graph.ExpandOtherCategoryKeepsStaleEdges`). One might expect only the
  clicked category's meal nodes to be replaced; the code removes them all, and
  so does the model.
- A category click passes the node's label, the category name, as the
  category. Category node ids are built from `idCategory`, but the meal
  edges' source is `cat-` + name. When the name is not one of the ids, the
  meal edges added right after the categories load start at an id that no
  node has (`Graph.MealEdgesSourceIsNoNode`); a meal expansion never adds a
  `cat-` node, so no later one repairs this (`Graph.ExpandMealsAddsNoCategoryId`).
- Dispatch tests the prefixes `cat` and `meal` without the dash. The meal id
  comes from removing the FIRST `meal-` anywhere in the id, not only a
  leading one (`Dispatch.Route`, `Strings.ReplaceFirst`). For ids the
  component builds itself, this gives back exactly the `idMeal`
  (`Dispatch.RouteMealNode`).
- Node ids stay unique only as long as each response repeats no id: the
  code never checks this. Uniqueness is proved as a property of each
  expansion under that condition on the response
  (`Graph.ExpandCategoriesUniqueIds`, `Graph.ExpandMealsUniqueIds`), not as
  part of the class invariant, and a repeated meal gives a repeated id
  (`Graph.RepeatedMealDuplicatesId`).
- Empty response lists behave as in JavaScript, where `[]` is truthy:
  - An empty category list still sets the guard flag.
  - An empty meal list clears all meal nodes and the edges out of that
    category.
  - An empty lookup list selects `undefined`, which hides the sidebar. The
    model writes this as `None`.

## Model

| member | source | states |
|---|---|---|
| `Graph.Initial` | src/App.tsx:7-9 | the graph on page load: the root node `explore-categories` labelled "Explore Categories", without image, alone; no edges (App.tsx:13); categories not loaded (App.tsx:15) |
| `Graph.CategoryNodes` | src/App.tsx:25-31 | one node per category in response order, id `cat-<idCategory>`, label the category name, no image |
| `Graph.CategoryEdges` | src/App.tsx:33-37 | one edge per category in response order, id `e1-<idCategory>`, from the root id to `cat-<idCategory>` |
| `Graph.MealNodes` | src/App.tsx:56-62 | one node per meal in response order, id `meal-<idMeal>`, label the meal name, image the thumbnail |
| `Graph.MealEdges` | src/App.tsx:64-68 | one edge per meal in response order, id `e-cat-<category>-<idMeal>`, from `cat-<category>` to `meal-<idMeal>` |
| `Graph.MapSeq` | src/App.tsx:25 | `Array.prototype.map`: same length, and element `i` is `f` of input element `i` (also App.tsx:33, 56, 64) |
| `Graph.Filter` | src/App.tsx:71 | `Array.prototype.filter`: no longer than the input, and an element is in the result iff it is in the input and passes; `Graph.FilterAppend` fixes order and multiplicity (also App.tsx:76) |
| `Graph.FilterAppend` | src/App.tsx:71 | filtering a concatenation is concatenating the filtered parts, so the filter keeps the input's order and copies |
| `Graph.WithoutMealNodes` | src/App.tsx:71 | a node is kept iff it was there and its id does not start with `meal-` |
| `Graph.EdgesNotFrom` | src/App.tsx:76 | an edge is kept iff it was there and its source differs from the given one |
| `Graph.ExpandCategories` | src/App.tsx:18-45 | guard set or request failed: graph unchanged; else old nodes and edges kept as a prefix, followed exactly by `CategoryNodes` and `CategoryEdges` of the response (ids, labels, no image, edge ids), flag set |
| `Graph.ExpandMeals` | src/App.tsx:47-82 | failed request or null list: graph unchanged; else the old non-meal nodes in order, then the new meal nodes in response order; the meal nodes afterwards are exactly the new ones, from whatever category the old ones came; the old edges not from `cat-<category>` in order, then one edge per new meal; edges from every other source kept; edges from `cat-<category>` afterwards exactly the new ones; flag unchanged |
| `Graph.ExpandCategoriesOnce` | src/App.tsx:19-41 | after one successful expansion, any further root expansion is a no-op |
| `Graph.ReplaceMealNodesIdempotent` | src/App.tsx:70-73 | replacing the meal nodes twice with the same meals equals replacing them once |
| `Graph.ReplaceEdgesFromIdempotent` | src/App.tsx:75-78 | replacing a category's meal edges twice with the same meals equals replacing them once |
| `Graph.ExpandMealsIdempotent` | src/App.tsx:70-78 | expanding the same category twice with the same meals equals expanding it once (no duplication) |
| `Graph.ExpandOtherCategoryKeepsStaleEdges` | src/App.tsx:70-78 | after expanding `a` then a different `b`, all edges to `a`'s meals remain but the only meal nodes are `b`'s |
| `Graph.ExpandMealsAddsNoCategoryId` | src/App.tsx:70-73 | a meal expansion adds no node whose id starts with `cat-`: an id no node had before stays absent |
| `Graph.MealEdgesSourceIsNoNode` | src/App.tsx:25-68 | if the category name is not an `idCategory`, the meal edges are present but no node has their source id |
| `Graph.InitialWellShaped` | src/App.tsx:7-13 | the initial graph (root alone, no edges, flag false) is well shaped |
| `Graph.ExpandCategoriesWellShaped` | src/App.tsx:25-41 | category expansion keeps the root first, node kinds, "no category node before loading" and edge kinds |
| `Graph.ExpandMealsWellShaped` | src/App.tsx:56-78 | meal expansion keeps the same invariant |
| `Graph.FilterKeepsUniqueIds` | src/App.tsx:71 | filtering a node list without repeated ids leaves none |
| `Graph.ExpandCategoriesUniqueIds` | src/App.tsx:19-39 | on a well-shaped graph without repeated node ids, a root expansion whose response repeats no `idCategory` leaves none (the guard and "no category node before loading" keep old and new ids apart) |
| `Graph.ExpandMealsUniqueIds` | src/App.tsx:56-73 | on a graph without repeated node ids, a meal expansion whose response repeats no `idMeal` leaves none (every old `meal-` node is removed first) |
| `Graph.RepeatedMealDuplicatesId` | src/App.tsx:56-73 | nothing checks the meal response: listing a meal twice gives two nodes with the same id |
| `Dispatch.Route` | src/App.tsx:94-104 | root id loads categories; else a `cat` prefix loads meals by the node's label; else a `meal` prefix loads details; else nothing; the meal id is the node id with its first `meal-` (at whatever index) cut out, or the id unchanged when it holds no `meal-` |
| `Dispatch.RouteRoot` | src/App.tsx:95-96 | a click on the root node loads the categories |
| `Dispatch.RouteCategoryNode` | src/App.tsx:97-99 | a click on a category node loads meals by the category name, not by its id |
| `Dispatch.RouteMealNode` | src/App.tsx:100-102 | a click on the node built from `idMeal` asks for exactly that `idMeal` |
| `Strings.StartsWithPointwise` | src/App.tsx:71 | `startsWith` holds iff the string is at least as long as the prefix and agrees with it at every index (also used at App.tsx:97, 100, 149) |
| `Strings.ReplaceFirst` | src/App.tsx:101 | no occurrence: string unchanged; otherwise the result is the string with the pattern at its first occurrence index (no earlier index starts the pattern) replaced, and the length changes accordingly |
| `Strings.ReplaceFirstOfPrefix` | src/App.tsx:101 | replacing a leading pattern removes exactly that prefix |
| `Strings.Split` | src/App.tsx:160 | one more piece than separators, and no piece holds the separator |
| `Strings.Join` | src/App.tsx:160 | no pieces give `""`; otherwise the result starts with the first piece, then the separator when there is a second piece, and its length is the pieces' total plus one separator per gap |
| `Strings.JoinAppend` | src/App.tsx:160 | joining two non-empty lists is joining each with one separator between: with the one-piece case, every piece appears in order with exactly one separator in each gap |
| `Strings.JoinSplitReplaces` | src/App.tsx:160 | split on a character then join with a string equals replacing each occurrence of that character by the string |
| `Strings.JoinSplitRoundTrip` | src/App.tsx:160 | joining the pieces of a split with the same separator gives back the string |
| `Sidebar.Lookup` | src/App.tsx:128-129 | the value is that of the first field with the key; a found value belongs to such a field; a key no field has gives `None` (reached through `Get`, also App.tsx:140, 157-164) |
| `Sidebar.Get` | src/App.tsx:128-129 | unwraps the record for `Lookup`: the first field with the key gives the value, a missing key gives `None` (also App.tsx:140, 157-164) |
| `Sidebar.Truthy` | src/App.tsx:149 | JavaScript truthiness of a string-or-null value: truthy iff present, not `null` and not `""` (also App.tsx:157, 164) |
| `Sidebar.IngredientList` | src/App.tsx:148-151 | every item is non-empty; every `strIngredient*` field with a truthy value is listed; every item comes from such a field |
| `Sidebar.IngredientListAppend` | src/App.tsx:148-151 | the list follows key order: the list of a concatenation is the concatenation of the lists |
| `Sidebar.IngredientListExample` | src/App.tsx:148-151 | Salt, empty, Pepper lists Salt and Pepper |
| `Sidebar.TagText` | src/App.tsx:160 | every comma becomes comma-space, nothing else changes, and the length grows by the comma count |
| `Sidebar.TagTextOfTwo` | src/App.tsx:160 | two comma-free tags joined by a comma show with a comma and a space between them |
| `Sidebar.TagTextExample` | src/App.tsx:160 | `Soup,Spicy` shows as `Soup, Spicy` |
| `Sidebar.NoTagsExample` | src/App.tsx:164 | a record without `strTags` shows the no-tags message under the tag view |
| `Sidebar.Blocks` | src/App.tsx:137-164 | exactly one block per view; the details block holds the record's `strInstructions`, the ingredients block the ingredient list; under the tag view the tag text (commas followed by a space) iff tags are truthy, else the no-tags message |
| `Sidebar.Render` | src/App.tsx:125-166 | the sidebar shows iff a meal is selected, with its name, thumbnail and the view's block |
| `Explorer.SelectFirst` | src/App.tsx:84-91 | failed lookup: selection kept; else selected iff the list is non-empty, and then it is the first meal |
| `Explorer.ExplorerState.constructor` | src/App.tsx:7-16 | root node alone, no edges, nothing selected, flag false, details view; invariant holds |
| `Explorer.ExplorerState.FetchCategories` | src/App.tsx:18-45 | graph becomes `ExpandCategories` of the old graph; selection and view unchanged; invariant kept |
| `Explorer.ExplorerState.FetchMealsByCategory` | src/App.tsx:47-82 | graph becomes `ExpandMeals` of the old graph; selection and view unchanged; invariant kept |
| `Explorer.ExplorerState.FetchMealDetails` | src/App.tsx:84-91 | selection becomes `SelectFirst` of the old one; graph and view unchanged |
| `Explorer.ExplorerState.CloseSidebar` | src/App.tsx:106-108 | selection cleared; nodes, edges, flag and view unchanged |
| `Explorer.ExplorerState.SetView` | src/App.tsx:131-135 | view set; graph and selection unchanged |
| `Explorer.ExplorerState.OnNodeClick` | src/App.tsx:94-104 | the handler chosen by `Route` runs with its response; the other state is unchanged; invariant kept |

## Left out

- The HTTP requests and TheMealDB URLs are not modelled. Each response is a
  parameter of its handler. The category name and meal id the component puts
  in a URL therefore have no effect in the model.
- The async handlers are not modelled as interleaving. If two requests are in
  flight, the last response to arrive wins in the source; here each handler
  runs atomically once its response is there. The closure that
  `fetchCategories` keeps of `categoriesLoaded` is left out for the same
  reason.
- Node positions and handle sides (`position`, `sourcePosition`,
  `targetPosition`) are left out. They are layout hints for the graph library.
- ReactFlow rendering, `onNodesChange`/`onEdgesChange`, Background, Controls
  and CSS belong to the graph library and are left out. The node and edge
  changes the library applies through `onNodesChange`/`onEdgesChange`
  (App.tsx:117-118), such as deleting a node with its delete key, are not
  modelled, so `Graph.WellShaped` is proved only for the click handlers: a
  user who deletes the root node breaks it.
- The `console.error` logging is left out. A failure is modelled only by the
  state staying unchanged.
- Response payloads are modelled only as far as the component reads them.
  Category rows hold `idCategory` and `strCategory`. Meal rows hold `idMeal`,
  `strMeal` and `strMealThumb`. A detail record's values are strings or
  `null`. Other JSON value kinds, and fields the component never reads, are
  not modelled.
- Sidebar.IngredientList: reads each field's own value rather than looking
  the key up again. The two agree because a JavaScript object holds each key
  once. The model does not enforce distinct keys.
- The view buttons are modelled only as `SetView`. The markup around them is
  left out.

=== FILE: dispatch.dfy ===
/** Click dispatch: which handler a click on a graph node starts, decided from
    the node's id alone. */
module Dispatch {
  import opened Strings
  import opened Graph

  /** What a node click starts: the category request, the meal request for a
      category name, the detail request for a meal id, or nothing. */
  datatype Action = LoadCategories | LoadMeals(category: string) | LoadDetails(mealId: string) | NoAction

  /** The root id is tested first; then the prefix `cat` (without the dash),
      passing the node's label; then the prefix `meal` (without the dash),
      passing the id with its first `meal-` removed. */
  function Route(node: Node): (a: Action)
    ensures a.LoadCategories? <==> node.id == RootId
    ensures a.LoadMeals? <==> node.id != RootId && StartsWith(node.id, "cat")
    ensures a.LoadMeals? ==> a.category == node.text
    ensures a.LoadDetails? <==> node.id != RootId && !StartsWith(node.id, "cat") && StartsWith(node.id, "meal")
    ensures a.LoadDetails? && !Contains(node.id, MealPrefix) ==> a.mealId == node.id
    ensures a.LoadDetails? && Contains(node.id, MealPrefix) ==>
      exists k :: FirstOccurrence(node.id, MealPrefix, k)
        && a.mealId == node.id[..k] + node.id[k + |MealPrefix|..]
  {
    if node.id == RootId then LoadCategories
    else if StartsWith(node.id, "cat") then LoadMeals(node.text)
    else if StartsWith(node.id, "meal") then LoadDetails(ReplaceFirst(node.id, MealPrefix, ""))
    else NoAction
  }

  /** A click on the root node loads the categories. */
  lemma RouteRoot()
    ensures Route(RootNode) == LoadCategories
  {
  }

  /** A click on a category node asks for that category's meals by its NAME
      (the node's label), not by the `idCategory` its id was built from. */
  lemma RouteCategoryNode(c: Category)
    ensures Route(CategoryNode(c)) == LoadMeals(c.strCategory)
  {
    var id := CategoryNode(c).id;
    assert id[0] == 'c' != RootId[0];
    assert id[..3] == "cat";
  }

  /** A click on a meal node built from `idMeal` asks for the details of
      exactly that `idMeal`: removing the first `meal-` undoes the prefix. */
  lemma RouteMealNode(m: MealSummary)
    ensures Route(MealNode(m)) == LoadDetails(m.idMeal)
  {
    var id := MealNode(m).id;
    assert id[0] == 'm' != RootId[0];
    assert id[0] != "cat"[0];
    assert id[..4] == "meal";
    ReplaceFirstOfPrefix(MealPrefix, m.idMeal, "");
  }
}

=== FILE: explorer.dfy ===
/** The explorer component's state and its click handlers. Each HTTP response
    is a parameter of the handler that waits for it: `None` stands for a
    request that failed or whose payload had no usable list. */
module Explorer {
  import opened Options
  import opened Graph
  import opened Dispatch
  import opened Sidebar

  /** `setSelectedMeal(response.data.meals[0])`: a failed lookup (or a `null`
      meal list, whose indexing throws) keeps the current selection; an empty
      list selects `undefined`, which hides the sidebar like `null`; otherwise
      the first meal of the response is selected. */
  function SelectFirst(current: Option<Meal>, response: Option<seq<Meal>>): (r: Option<Meal>)
    ensures response.None? ==> r == current
    ensures response.Some? ==> (r.Some? <==> |response.value| > 0)
    ensures response.Some? && r.Some? ==> r.value == response.value[0]
  {
    match response
    case None => current
    case Some(meals) => if |meals| == 0 then None else Some(meals[0])
  }

  class ExplorerState {
    var nodes: seq<Node>
    var edges: seq<Edge>
    var selected: Option<Meal>
    var categoriesLoaded: bool
    var view: View

    /** The part of the state the graph handlers read and write. */
    function State(): GraphState
      reads this
    {
      GraphState(nodes, edges, categoriesLoaded)
    }

    ghost predicate Valid()
      reads this
    {
      WellShaped(State())
    }

    /** The state when the page loads: the root node alone, no edges, nothing
        selected, categories not loaded, the details view. */
    constructor ()
      ensures Valid()
      ensures State() == Initial() && selected == None && view == Details
    {
      nodes := [RootNode];
      edges := [];
      selected := None;
      categoriesLoaded := false;
      view := Details;
      InitialWellShaped();
    }

    /** `fetchCategories` once its response is in. */
    method FetchCategories(response: Option<seq<Category>>)
      requires Valid()
      modifies this
      ensures Valid()
      ensures State() == ExpandCategories(old(State()), response)
      ensures selected == old(selected) && view == old(view)
    {
      ExpandCategoriesWellShaped(State(), response);
      if categoriesLoaded {
        return;
      }
      match response {
        case None =>
        case Some(cs) =>
          nodes := nodes + CategoryNodes(cs);
          edges := edges + CategoryEdges(cs);
          categoriesLoaded := true;
      }
    }

    /** `fetchMealsByCategory(category)` once its response is in. */
    method FetchMealsByCategory(category: string, response: Option<seq<MealSummary>>)
      requires Valid()
      modifies this
      ensures Valid()
      ensures State() == ExpandMeals(old(State()), category, response)
      ensures selected == old(selected) && view == old(view)
    {
      ExpandMealsWellShaped(State(), category, response);
      match response {
        case None =>
        case Some(ms) =>
          nodes := WithoutMealNodes(nodes) + MealNodes(ms);
          edges := EdgesNotFrom(edges, CategoryPrefix + category) + MealEdges(category, ms);
      }
    }

    /** `fetchMealDetails` once its response is in: only the selection can
        change. */
    method FetchMealDetails(response: Option<seq<Meal>>)
      modifies this
      ensures selected == SelectFirst(old(selected), response)
      ensures State() == old(State()) && view == old(view)
    {
      match response {
        case None =>
        case Some(meals) =>
          selected := if |meals| == 0 then None else Some(meals[0]);
      }
    }

    /** `closeSidebar`: clears the selection and nothing else; the view is
        kept for the next meal. */
    method CloseSidebar()
      modifies this
      ensures selected == None
      ensures State() == old(State()) && view == old(view)
    {
      selected := None;
    }

    /** One of the three view buttons. */
    method SetView(v: View)
      modifies this
      ensures view == v
      ensures State() == old(State()) && selected == old(selected)
    {
      view := v;
    }

    /** `onNodeClick`: routes the click by the node's id and runs the chosen
        handler with the response to its request. */
    method OnNodeClick(node: Node, categories: Option<seq<Category>>,
                       meals: Option<seq<MealSummary>>, details: Option<seq<Meal>>)
      requires Valid()
      modifies this
      ensures Valid() && view == old(view)
      ensures match Route(node)
        case LoadCategories =>
          State() == ExpandCategories(old(State()), categories) && selected == old(selected)
        case LoadMeals(category) =>
          State() == ExpandMeals(old(State()), category, meals) && selected == old(selected)
        case LoadDetails(_) =>
          State() == old(State()) && selected == SelectFirst(old(selected), details)
        case NoAction =>
          State() == old(State()) && selected == old(selected)
    {
      match Route(node) {
        case LoadCategories => FetchCategories(categories);
        case LoadMeals(category) => FetchMealsByCategory(category, meals);
        case LoadDetails(_) => FetchMealDetails(details);
        case NoAction =>
      }
    }
  }

  /** A session as a client sees it through the handlers' contracts: the root
      expanded twice, a category expanded twice, a meal opened and closed. */
  method ExploreSession(cs: seq<Category>, ms: seq<MealSummary>, details: seq<Meal>)
    requires |cs| > 0 && |details| > 0
  {
    var app := new ExplorerState();
    app.OnNodeClick(RootNode, Some(cs), None, None);
    assert |app.nodes| == 1 + |cs| && app.categoriesLoaded;
    var afterCategories := app.State();
    app.OnNodeClick(RootNode, Some(cs), None, None);
    assert app.State() == afterCategories;

    var cat := CategoryNode(cs[0]);
    RouteCategoryNode(cs[0]);
    app.OnNodeClick(cat, None, Some(ms), None);
    var afterMeals := app.State();
    app.OnNodeClick(cat, None, Some(ms), None);
    ExpandMealsIdempotent(afterCategories, cs[0].strCategory, ms);
    assert app.State() == afterMeals;

    if |ms| > 0 {
      RouteMealNode(ms[0]);
      app.OnNodeClick(MealNode(ms[0]), None, None, Some(details));
      assert app.selected == Some(details[0]);
      app.CloseSidebar();
      assert app.selected == None && app.State() == afterMeals;
    }
  }
}

=== FILE: graph.dfy ===
/** The explorer's node-link graph: its node and edge records, the node and
    edge lists built from an API response, the filter-and-append updates the
    two expansion handlers apply, and the shape the graph keeps. */
module Graph {
  import opened Options
  import opened Strings

  /** A graph node: its id, the label shown on it and, for meal nodes, the
      thumbnail URL. */
  datatype Node = Node(id: string, text: string, image: Option<string>)

  /** A directed edge between two node ids. */
  datatype Edge = Edge(id: string, source: string, target: string)

  /** One row of the categories response. */
  datatype Category = Category(idCategory: string, strCategory: string)

  /** One row of the filter-by-category response. */
  datatype MealSummary = MealSummary(idMeal: string, strMeal: string, strMealThumb: string)

  const RootId: string := "explore-categories"
  const RootNode: Node := Node(RootId, "Explore Categories", None)
  const CategoryPrefix: string := "cat-"
  const MealPrefix: string := "meal-"

  predicate IsCategoryId(id: string) { StartsWith(id, CategoryPrefix) }
  predicate IsMealId(id: string) { StartsWith(id, MealPrefix) }

  /** No id is both a meal id and a category id. */
  lemma MealIdIsNoCategoryId(id: string)
    requires IsMealId(id)
    ensures !IsCategoryId(id)
  {
    assert id[0] == MealPrefix[0] != CategoryPrefix[0];
  }

  /** The root id is neither a category id nor a meal id. */
  lemma RootIdIsNoPrefixedId()
    ensures !IsCategoryId(RootId) && !IsMealId(RootId)
  {
    assert RootId[0] != CategoryPrefix[0] && RootId[0] != MealPrefix[0];
  }

  /** Meal ids built from different `idMeal`s differ. */
  lemma MealIdsDiffer(a: string, b: string)
    requires a != b
    ensures MealPrefix + a != MealPrefix + b
  {
    assert (MealPrefix + a)[|MealPrefix|..] == a;
    assert (MealPrefix + b)[|MealPrefix|..] == b;
  }

  /** Category ids built from different names differ. */
  lemma CategoryIdsDiffer(a: string, b: string)
    requires a != b
    ensures CategoryPrefix + a != CategoryPrefix + b
  {
    assert (CategoryPrefix + a)[|CategoryPrefix|..] == a;
    assert (CategoryPrefix + b)[|CategoryPrefix|..] == b;
  }

  // ---------------------------------------------------------------------------
  // Array.prototype.map and Array.prototype.filter

  function MapSeq<A, B>(f: A -> B, xs: seq<A>): (r: seq<B>)
    ensures |r| == |xs|
    ensures forall i :: 0 <= i < |xs| ==> r[i] == f(xs[i])
    decreases |xs|
  {
    if |xs| == 0 then [] else [f(xs[0])] + MapSeq(f, xs[1..])
  }

  /** The elements of `xs` that satisfy `p`, in their original order. */
  function Filter<T(!new)>(p: T -> bool, xs: seq<T>): (r: seq<T>)
    ensures |r| <= |xs|
    ensures forall x :: x in r <==> x in xs && p(x)
    decreases |xs|
  {
    if |xs| == 0 then []
    else if p(xs[0]) then [xs[0]] + Filter(p, xs[1..])
    else Filter(p, xs[1..])
  }

  lemma {:induction false} FilterAppend<T(!new)>(p: T -> bool, xs: seq<T>, ys: seq<T>)
    ensures Filter(p, xs + ys) == Filter(p, xs) + Filter(p, ys)
    decreases |xs|
  {
    if |xs| > 0 {
      assert (xs + ys)[1..] == xs[1..] + ys;
      FilterAppend(p, xs[1..], ys);
    } else {
      assert xs + ys == ys;
    }
  }

  /** Filtering keeps everything when every element passes. */
  lemma {:induction false} FilterKeepsAll<T(!new)>(p: T -> bool, xs: seq<T>)
    requires forall i :: 0 <= i < |xs| ==> p(xs[i])
    ensures Filter(p, xs) == xs
    decreases |xs|
  {
    if |xs| > 0 {
      FilterKeepsAll(p, xs[1..]);
    }
  }

  /** Filtering drops everything when no element passes. */
  lemma FilterDropsAll<T(!new)>(p: T -> bool, xs: seq<T>)
    requires forall i :: 0 <= i < |xs| ==> !p(xs[i])
    ensures Filter(p, xs) == []
  {
  }

  /** Filtering twice with the same predicate is filtering once. */
  lemma FilterIdempotent<T(!new)>(p: T -> bool, xs: seq<T>)
    ensures Filter(p, Filter(p, xs)) == Filter(p, xs)
  {
    var r := Filter(p, xs);
    forall i | 0 <= i < |r| ensures p(r[i]) {
      assert r[i] in r;
    }
    FilterKeepsAll(p, r);
  }

  /** A filter keeps the first element when that element passes. */
  lemma FilterKeepsHead<T(!new)>(p: T -> bool, xs: seq<T>)
    requires |xs| > 0 && p(xs[0])
    ensures |Filter(p, xs)| > 0 && Filter(p, xs)[0] == xs[0]
  {
  }

  // ---------------------------------------------------------------------------
  // Nodes and edges built from the API responses

  function CategoryNode(c: Category): Node {
    Node(CategoryPrefix + c.idCategory, c.strCategory, None)
  }

  function CategoryEdge(c: Category): Edge {
    Edge("e1-" + c.idCategory, RootId, CategoryPrefix + c.idCategory)
  }

  function MealNode(m: MealSummary): Node {
    Node(MealPrefix + m.idMeal, m.strMeal, Some(m.strMealThumb))
  }

  /** The edge from a category to one of its meals. Its source is built from
      the category LABEL that the click handler passes, not from `idCategory`. */
  function MealEdge(category: string, m: MealSummary): Edge {
    Edge("e-cat-" + category + "-" + m.idMeal, CategoryPrefix + category, MealPrefix + m.idMeal)
  }

  /** One category node per category, in response order, each with id
      `cat-<idCategory>`, the category name as label and no image. */
  function CategoryNodes(cs: seq<Category>): (r: seq<Node>)
    ensures |r| == |cs|
    ensures forall i :: 0 <= i < |cs| ==>
      r[i].id == CategoryPrefix + cs[i].idCategory && r[i].text == cs[i].strCategory
      && r[i].image == None && IsCategoryId(r[i].id)
  {
    MapSeq(CategoryNode, cs)
  }

  /** One edge per category, with id `e1-<idCategory>`, from the root to that
      category's node. */
  function CategoryEdges(cs: seq<Category>): (r: seq<Edge>)
    ensures |r| == |cs|
    ensures forall i :: 0 <= i < |cs| ==>
      r[i].id == "e1-" + cs[i].idCategory && r[i].source == RootId
      && r[i].target == CategoryPrefix + cs[i].idCategory
  {
    MapSeq(CategoryEdge, cs)
  }

  /** One meal node per meal, in response order, each with id `meal-<idMeal>`,
      the meal name as label and the thumbnail as image. */
  function MealNodes(ms: seq<MealSummary>): (r: seq<Node>)
    ensures |r| == |ms|
    ensures forall i :: 0 <= i < |ms| ==>
      r[i].id == MealPrefix + ms[i].idMeal && r[i].text == ms[i].strMeal
      && r[i].image == Some(ms[i].strMealThumb) && IsMealId(r[i].id)
  {
    MapSeq(MealNode, ms)
  }

  /** One edge per meal, with id `e-cat-<category>-<idMeal>`, from
      `cat-<category>` to that meal's node. */
  function MealEdges(category: string, ms: seq<MealSummary>): (r: seq<Edge>)
    ensures |r| == |ms|
    ensures forall i :: 0 <= i < |ms| ==>
      r[i].id == "e-cat-" + category + "-" + ms[i].idMeal
      && r[i].source == CategoryPrefix + category && r[i].target == MealPrefix + ms[i].idMeal
  {
    MapSeq((m: MealSummary) => MealEdge(category, m), ms)
  }

  /** Keeps a node unless its id starts with `meal-`. */
  predicate KeepsNode(n: Node) { !IsMealId(n.id) }

  /** Every node whose id does not start with `meal-`, in order: the nodes of
      every category's meals are dropped, not only one category's. */
  function WithoutMealNodes(nodes: seq<Node>): (r: seq<Node>)
    ensures forall n :: n in r <==> n in nodes && !IsMealId(n.id)
  {
    Filter(KeepsNode, nodes)
  }

  /** Every edge whose source is not `source`, in order. */
  function EdgesNotFrom(edges: seq<Edge>, source: string): (r: seq<Edge>)
    ensures forall e :: e in r <==> e in edges && e.source != source
  {
    Filter((e: Edge) => e.source != source, edges)
  }

  // ---------------------------------------------------------------------------
  // The graph state and the two expansion handlers

  datatype GraphState = GraphState(nodes: seq<Node>, edges: seq<Edge>, categoriesLoaded: bool)

  /** The graph when the page loads: the root node `explore-categories`,
      labelled "Explore Categories", alone; no edges; categories not loaded. */
  function Initial(): (g: GraphState)
    ensures |g.nodes| == 1 && g.nodes[0].id == RootId && g.nodes[0].text == "Explore Categories"
      && g.nodes[0].image == None
    ensures g.edges == [] && !g.categoriesLoaded
  {
    GraphState([RootNode], [], false)
  }

  /** Expanding the root. A set guard flag, or a failed request, leaves the
      graph as it is; otherwise the category nodes and the root-to-category
      edges, one per category in response order, are appended after the
      existing ones and the flag is set. */
  function ExpandCategories(g: GraphState, response: Option<seq<Category>>): (g': GraphState)
    ensures g.categoriesLoaded || response.None? ==> g' == g
    ensures !g.categoriesLoaded && response.Some? ==>
      && g'.categoriesLoaded
      && |g'.nodes| == |g.nodes| + |response.value|
      && |g'.edges| == |g.edges| + |response.value|
      && g'.nodes[..|g.nodes|] == g.nodes
      && g'.edges[..|g.edges|] == g.edges
      && g'.nodes[|g.nodes|..] == CategoryNodes(response.value)
      && g'.edges[|g.edges|..] == CategoryEdges(response.value)
  {
    if g.categoriesLoaded then g
    else match response
      case None => g
      case Some(cs) =>
        var nodes', edges' := g.nodes + CategoryNodes(cs), g.edges + CategoryEdges(cs);
        assert nodes'[..|g.nodes|] == g.nodes && nodes'[|g.nodes|..] == CategoryNodes(cs);
        assert edges'[..|g.edges|] == g.edges && edges'[|g.edges|..] == CategoryEdges(cs);
        GraphState(nodes', edges', true)
  }

  /** Expanding a category with the meals the server returned for it. A failed
      request or a `null` meal list leaves the graph as it is. Otherwise the
      old non-meal nodes are kept in their order and followed by the new meal
      nodes in response order: no earlier meal node survives, whatever
      category it came from, unless the response holds it again. The old
      edges whose source is not `cat-<category>` are kept in their order
      (edges out of other categories included) and followed by one edge per
      new meal; the flag is unchanged. */
  function ExpandMeals(g: GraphState, category: string, response: Option<seq<MealSummary>>): (g': GraphState)
    ensures response.None? ==> g' == g
    ensures response.Some? ==>
      var ms, source := response.value, CategoryPrefix + category;
      && g'.categoriesLoaded == g.categoriesLoaded
      && |g'.nodes| == |WithoutMealNodes(g.nodes)| + |ms|
      && g'.nodes[..|g'.nodes| - |ms|] == WithoutMealNodes(g.nodes)
      && g'.nodes[|g'.nodes| - |ms|..] == MealNodes(ms)
      && (forall n :: n in g'.nodes && IsMealId(n.id) <==> n in MealNodes(ms))
      && (forall n :: n in g'.nodes && !IsMealId(n.id) <==> n in g.nodes && !IsMealId(n.id))
      && |g'.edges| == |EdgesNotFrom(g.edges, source)| + |ms|
      && g'.edges[..|g'.edges| - |ms|] == EdgesNotFrom(g.edges, source)
      && g'.edges[|g'.edges| - |ms|..] == MealEdges(category, ms)
      && (forall e :: e in g.edges && e.source != source ==> e in g'.edges)
      && (forall e :: e in g'.edges && e.source == source <==> e in MealEdges(category, ms))
  {
    match response
    case None => g
    case Some(ms) =>
      var kept, added := WithoutMealNodes(g.nodes), MealNodes(ms);
      var keptEdges := EdgesNotFrom(g.edges, CategoryPrefix + category);
      var addedEdges := MealEdges(category, ms);
      assert (kept + added)[..|kept|] == kept && (kept + added)[|kept|..] == added;
      assert (keptEdges + addedEdges)[..|keptEdges|] == keptEdges;
      assert (keptEdges + addedEdges)[|keptEdges|..] == addedEdges;
      MealNodesAreMealNodes(ms);
      GraphState(kept + added, keptEdges + addedEdges, g.categoriesLoaded)
  }

  // ---------------------------------------------------------------------------
  // Properties of the handlers

  /** Once one category expansion has succeeded, any further expansion of the
      root changes nothing, whatever the response. */
  lemma ExpandCategoriesOnce(g: GraphState, cs: seq<Category>, response: Option<seq<Category>>)
    ensures ExpandCategories(ExpandCategories(g, Some(cs)), response) == ExpandCategories(g, Some(cs))
  {
  }

  /** Replacing the meal nodes twice with the same meals is replacing them once. */
  lemma ReplaceMealNodesIdempotent(nodes: seq<Node>, ms: seq<MealSummary>)
    ensures WithoutMealNodes(WithoutMealNodes(nodes) + MealNodes(ms)) + MealNodes(ms)
         == WithoutMealNodes(nodes) + MealNodes(ms)
  {
    var kept, added := WithoutMealNodes(nodes), MealNodes(ms);
    FilterAppend(KeepsNode, kept, added);
    FilterIdempotent(KeepsNode, nodes);
    FilterDropsAll(KeepsNode, added);
    assert WithoutMealNodes(kept + added) == kept;
  }

  /** Replacing the edges out of one source twice with the same edges is
      replacing them once. */
  lemma ReplaceEdgesFromIdempotent(edges: seq<Edge>, category: string, ms: seq<MealSummary>)
    ensures EdgesNotFrom(EdgesNotFrom(edges, CategoryPrefix + category) + MealEdges(category, ms), CategoryPrefix + category)
            + MealEdges(category, ms)
         == EdgesNotFrom(edges, CategoryPrefix + category) + MealEdges(category, ms)
  {
    var src := CategoryPrefix + category;
    var p := (e: Edge) => e.source != src;
    var added := MealEdges(category, ms);
    var kept := Filter(p, edges);
    assert kept == EdgesNotFrom(edges, src);
    FilterAppend(p, kept, added);
    FilterIdempotent(p, edges);
    FilterDropsAll(p, added);
    assert EdgesNotFrom(kept + added, src) == Filter(p, kept + added) == kept;
  }

  /** Expanding the same category twice with the same meals gives the graph a
      single expansion gives: nothing is duplicated. */
  lemma ExpandMealsIdempotent(g: GraphState, category: string, ms: seq<MealSummary>)
    ensures ExpandMeals(ExpandMeals(g, category, Some(ms)), category, Some(ms))
         == ExpandMeals(g, category, Some(ms))
  {
    ReplaceMealNodesIdempotent(g.nodes, ms);
    ReplaceEdgesFromIdempotent(g.edges, category, ms);
  }

  /** Expanding a second category drops the first category's meal nodes but
      keeps its edges: after expanding `a` and then a different `b`, every
      edge to a meal of `a` is still there, while the only meal nodes left are
      those of `b`. */
  lemma ExpandOtherCategoryKeepsStaleEdges(g: GraphState, a: string, msA: seq<MealSummary>,
                                           b: string, msB: seq<MealSummary>)
    requires a != b
    ensures var g2 := ExpandMeals(ExpandMeals(g, a, Some(msA)), b, Some(msB));
      && (forall e :: e in MealEdges(a, msA) ==> e in g2.edges)
      && (forall n :: n in g2.nodes && IsMealId(n.id) ==> n in MealNodes(msB))
  {
    var g1 := ExpandMeals(g, a, Some(msA));
    CategoryIdsDiffer(a, b);
  }

  /** A meal expansion adds no node with a `cat-` id. */
  lemma ExpandMealsAddsNoCategoryId(g: GraphState, category: string, ms: seq<MealSummary>, id: string)
    requires IsCategoryId(id)
    requires forall n :: n in g.nodes ==> n.id != id
    ensures forall n :: n in ExpandMeals(g, category, Some(ms)).nodes ==> n.id != id
  {
    var g' := ExpandMeals(g, category, Some(ms));
    forall n | n in g'.nodes ensures n.id != id {
      if IsMealId(n.id) {
        MealIdIsNoCategoryId(n.id);
      } else {
        assert n in g.nodes;
      }
    }
  }

  /** Neither the root nor a category node has the id `cat-<name>` for a
      name that is no category's `idCategory`. */
  lemma LoadedIdsAvoid(cs: seq<Category>, name: string)
    requires forall i :: 0 <= i < |cs| ==> cs[i].idCategory != name
    ensures forall n :: n in [RootNode] + CategoryNodes(cs) ==> n.id != CategoryPrefix + name
  {
    var src := CategoryPrefix + name;
    forall n | n in [RootNode] + CategoryNodes(cs) ensures n.id != src {
      if n == RootNode {
        RootIdIsNoPrefixedId();
        assert IsCategoryId(src);
      } else {
        assert n in CategoryNodes(cs);
        var i :| 0 <= i < |cs| && CategoryNodes(cs)[i] == n;
        CategoryIdsDiffer(cs[i].idCategory, name);
      }
    }
  }

  /** Category node ids are built from `idCategory`, but a category click
      builds the meal edges' source from the category name. When the name is
      not one of the loaded ids, no node of the graph has that source as its
      id, so every new meal edge starts at a node that does not exist. */
  lemma MealEdgesSourceIsNoNode(cs: seq<Category>, category: string, ms: seq<MealSummary>)
    requires forall i :: 0 <= i < |cs| ==> cs[i].idCategory != category
    ensures var g := ExpandMeals(ExpandCategories(Initial(), Some(cs)), category, Some(ms));
      && (forall e :: e in MealEdges(category, ms) ==> e in g.edges)
      && (forall n :: n in g.nodes ==> n.id != CategoryPrefix + category)
  {
    LoadedIdsAvoid(cs, category);
    assert ExpandCategories(Initial(), Some(cs)).nodes == [RootNode] + CategoryNodes(cs);
    assert IsCategoryId(CategoryPrefix + category);
    ExpandMealsAddsNoCategoryId(ExpandCategories(Initial(), Some(cs)), category, ms, CategoryPrefix + category);
  }

  // ---------------------------------------------------------------------------
  // The shape the graph keeps

  /** The root node stays first; every other node is a category or a meal
      node; no category node exists before the categories are loaded; and
      every edge runs from the root to a category node id or from a
      `cat-` id to a meal node id. The click handlers keep this shape; the
      graph library's own node and edge changes (`onNodesChange`,
      `onEdgesChange`, for instance deleting the root with the delete key)
      are not modelled and can break it. */
  predicate WellShaped(g: GraphState) {
    && |g.nodes| > 0 && g.nodes[0] == RootNode
    && (forall n :: n in g.nodes ==> n == RootNode || IsCategoryId(n.id) || IsMealId(n.id))
    && (!g.categoriesLoaded ==> forall n :: n in g.nodes ==> !IsCategoryId(n.id))
    && (forall e :: e in g.edges ==>
          (e.source == RootId && IsCategoryId(e.target)) || (IsCategoryId(e.source) && IsMealId(e.target)))
  }

  lemma InitialWellShaped()
    ensures WellShaped(Initial())
  {
    RootIdIsNoPrefixedId();
  }

  lemma ExpandCategoriesWellShaped(g: GraphState, response: Option<seq<Category>>)
    requires WellShaped(g)
    ensures WellShaped(ExpandCategories(g, response))
  {
    if !g.categoriesLoaded && response.Some? {
      var cs := response.value;
      var nodes := CategoryNodes(cs);
      var edges := CategoryEdges(cs);
      forall n | n in nodes ensures IsCategoryId(n.id) {
        var i :| 0 <= i < |nodes| && nodes[i] == n;
      }
      forall e | e in edges ensures e.source == RootId && IsCategoryId(e.target) {
        var i :| 0 <= i < |edges| && edges[i] == e;
        assert e.target == CategoryNode(cs[i]).id == nodes[i].id;
      }
    }
  }

  lemma MealNodesAreMealNodes(ms: seq<MealSummary>)
    ensures forall n :: n in MealNodes(ms) ==> IsMealId(n.id) && !IsCategoryId(n.id)
  {
    var added := MealNodes(ms);
    forall n | n in added ensures IsMealId(n.id) && !IsCategoryId(n.id) {
      var i :| 0 <= i < |added| && added[i] == n;
      MealIdIsNoCategoryId(n.id);
    }
  }

  lemma MealEdgesRunFromCategoryToMeal(category: string, ms: seq<MealSummary>)
    ensures forall e :: e in MealEdges(category, ms) ==> IsCategoryId(e.source) && IsMealId(e.target)
  {
    var added := MealEdges(category, ms);
    forall e | e in added ensures IsCategoryId(e.source) && IsMealId(e.target) {
      var i :| 0 <= i < |added| && added[i] == e;
      assert e.target == MealNodes(ms)[i].id;
      assert e.source[..4] == CategoryPrefix;
    }
  }

  lemma ExpandMealsWellShaped(g: GraphState, category: string, response: Option<seq<MealSummary>>)
    requires WellShaped(g)
    ensures WellShaped(ExpandMeals(g, category, response))
  {
    if response.Some? {
      var ms := response.value;
      var g' := ExpandMeals(g, category, response);
      RootIdIsNoPrefixedId();
      FilterKeepsHead(KeepsNode, g.nodes);
      assert g'.nodes[0] == RootNode;
      MealNodesAreMealNodes(ms);
      MealEdgesRunFromCategoryToMeal(category, ms);
    }
  }

  // ---------------------------------------------------------------------------
  // Unique node ids

  /** No two nodes share an id. The component keeps ids apart only through
      the guard on the root expansion and the removal of every meal node
      before new ones are added; nothing checks the responses. */
  predicate UniqueIds(nodes: seq<Node>) {
    forall i, j :: 0 <= i < j < |nodes| ==> nodes[i].id != nodes[j].id
  }

  predicate DistinctCategoryIds(cs: seq<Category>) {
    forall i, j :: 0 <= i < j < |cs| ==> cs[i].idCategory != cs[j].idCategory
  }

  predicate DistinctMealIds(ms: seq<MealSummary>) {
    forall i, j :: 0 <= i < j < |ms| ==> ms[i].idMeal != ms[j].idMeal
  }

  /** Two lists without repeated ids and without an id in common concatenate
      to a list without repeated ids. */
  lemma UniqueIdsAppend(a: seq<Node>, b: seq<Node>)
    requires UniqueIds(a) && UniqueIds(b)
    requires forall x, y :: x in a && y in b ==> x.id != y.id
    ensures UniqueIds(a + b)
  {
    forall i, j | 0 <= i < j < |a + b| ensures (a + b)[i].id != (a + b)[j].id {
      if j < |a| {
      } else if i >= |a| {
        assert (a + b)[i] == b[i - |a|] && (a + b)[j] == b[j - |a|];
      } else {
        assert (a + b)[i] in a && (a + b)[j] == b[j - |a|] && b[j - |a|] in b;
      }
    }
  }

  /** Filtering keeps ids unique. */
  lemma {:induction false} FilterKeepsUniqueIds(p: Node -> bool, nodes: seq<Node>)
    requires UniqueIds(nodes)
    ensures UniqueIds(Filter(p, nodes))
    decreases |nodes|
  {
    if |nodes| > 0 {
      var rest := nodes[1..];
      assert UniqueIds(rest) by {
        forall i, j | 0 <= i < j < |rest| ensures rest[i].id != rest[j].id {
          assert rest[i] == nodes[i + 1] && rest[j] == nodes[j + 1];
        }
      }
      FilterKeepsUniqueIds(p, rest);
      if p(nodes[0]) {
        forall y | y in Filter(p, rest) ensures nodes[0].id != y.id {
          var k :| 0 <= k < |rest| && rest[k] == y;
          assert nodes[k + 1] == y;
        }
        UniqueIdsAppend([nodes[0]], Filter(p, rest));
      }
    }
  }

  lemma MealNodesUniqueIds(ms: seq<MealSummary>)
    requires DistinctMealIds(ms)
    ensures UniqueIds(MealNodes(ms))
  {
    var added := MealNodes(ms);
    forall i, j | 0 <= i < j < |added| ensures added[i].id != added[j].id {
      MealIdsDiffer(ms[i].idMeal, ms[j].idMeal);
    }
  }

  lemma CategoryNodesUniqueIds(cs: seq<Category>)
    requires DistinctCategoryIds(cs)
    ensures UniqueIds(CategoryNodes(cs))
  {
    var added := CategoryNodes(cs);
    forall i, j | 0 <= i < j < |added| ensures added[i].id != added[j].id {
      CategoryIdsDiffer(cs[i].idCategory, cs[j].idCategory);
    }
  }

  /** A meal expansion keeps node ids unique when the response repeats no
      `idMeal`: the old meal nodes are all gone, and no kept node has a
      `meal-` id. */
  lemma ExpandMealsUniqueIds(g: GraphState, category: string, response: Option<seq<MealSummary>>)
    requires UniqueIds(g.nodes)
    requires response.Some? ==> DistinctMealIds(response.value)
    ensures UniqueIds(ExpandMeals(g, category, response).nodes)
  {
    if response.Some? {
      var ms := response.value;
      var kept, added := WithoutMealNodes(g.nodes), MealNodes(ms);
      FilterKeepsUniqueIds(KeepsNode, g.nodes);
      MealNodesUniqueIds(ms);
      MealNodesAreMealNodes(ms);
      UniqueIdsAppend(kept, added);
    }
  }

  /** A root expansion keeps node ids unique when the response repeats no
      `idCategory`: before loading, the graph has no category node. */
  lemma ExpandCategoriesUniqueIds(g: GraphState, response: Option<seq<Category>>)
    requires WellShaped(g) && UniqueIds(g.nodes)
    requires response.Some? ==> DistinctCategoryIds(response.value)
    ensures UniqueIds(ExpandCategories(g, response).nodes)
  {
    if !g.categoriesLoaded && response.Some? {
      var cs := response.value;
      var added := CategoryNodes(cs);
      CategoryNodesUniqueIds(cs);
      forall x, y | x in g.nodes && y in added ensures x.id != y.id {
        var k :| 0 <= k < |added| && added[k] == y;
      }
      UniqueIdsAppend(g.nodes, added);
    }
  }

  /** Nothing checks the meal response: one that lists the same meal twice
      gives two nodes with the same id. */
  lemma RepeatedMealDuplicatesId(g: GraphState, category: string, m: MealSummary)
    ensures !UniqueIds(ExpandMeals(g, category, Some([m, m])).nodes)
  {
    var ns := ExpandMeals(g, category, Some([m, m])).nodes;
    assert ns[|ns| - 2..] == MealNodes([m, m]);
    assert ns[|ns| - 2] == ns[|ns| - 1];
  }
}

=== FILE: options.dfy ===
/** Optional values: `None` stands for JavaScript's `null`/`undefined`, and for an
    HTTP response that did not arrive or did not have the expected shape. */
module Options {
  datatype Option<+T> = None | Some(value: T)
}

=== FILE: sidebar.dfy ===
/** The detail sidebar: the meal record a detail lookup returns, the three
    views of it, and what each view shows. */
module Sidebar {
  import opened Options
  import opened Strings

  /** One property of the meal record; `None` is a JSON `null`. */
  datatype Field = Field(key: string, value: Option<string>)

  /** A meal detail record: the properties of a JSON object in key order
      (the order `Object.keys` lists them). An object holds each key once. */
  datatype Meal = Meal(fields: seq<Field>)

  /** Which projection of the selected meal the sidebar shows. */
  datatype View = Details | Ingredients | Tags

  /** Field `i` is the first field with key `key`. */
  predicate FirstWithKey(fields: seq<Field>, key: string, i: int) {
    0 <= i < |fields| && fields[i].key == key && forall j :: 0 <= j < i ==> fields[j].key != key
  }

  /** `meal[key]`: the value of the property named `key`; `None` when there is
      no such property (`undefined`) or it is `null`. */
  function Lookup(fields: seq<Field>, key: string): (v: Option<string>)
    ensures v.Some? ==> Field(key, v) in fields
    ensures (forall i :: 0 <= i < |fields| ==> fields[i].key != key) ==> v.None?
    ensures forall i :: FirstWithKey(fields, key, i) ==> v == fields[i].value
    decreases |fields|
  {
    if |fields| == 0 then None
    else if fields[0].key == key then fields[0].value
    else
      var v := Lookup(fields[1..], key);
      assert forall i :: FirstWithKey(fields, key, i) ==> FirstWithKey(fields[1..], key, i - 1);
      v
  }

  /** Property access on the meal record (`meal.strMeal`, `meal[key]`): only
      unwraps the record and hands its fields to `Lookup`, whose contract it
      carries over to the record. */
  function Get(m: Meal, key: string): (v: Option<string>)
    ensures forall i :: FirstWithKey(m.fields, key, i) ==> v == m.fields[i].value
    ensures (forall i :: 0 <= i < |m.fields| ==> m.fields[i].key != key) ==> v.None?
  {
    Lookup(m.fields, key)
  }

  /** JavaScript truthiness of a string property: present, not `null` and not
      the empty string. */
  predicate Truthy(v: Option<string>) {
    v.Some? && v.value != ""
  }

  const IngredientPrefix: string := "strIngredient"

  /** A property the ingredient view lists: its key starts with
      `strIngredient` and its value is truthy. */
  predicate IsIngredient(f: Field) {
    StartsWith(f.key, IngredientPrefix) && Truthy(f.value)
  }

  /** The ingredient view: the values of the listed properties, in key order.
      Empty and null values are skipped; every listed property appears, and
      nothing else does. */
  function IngredientList(fields: seq<Field>): (items: seq<string>)
    ensures |items| <= |fields|
    ensures forall x :: x in items ==> x != ""
    ensures forall i :: 0 <= i < |fields| && IsIngredient(fields[i]) ==> fields[i].value.value in items
    ensures forall x :: x in items ==>
      exists i :: 0 <= i < |fields| && IsIngredient(fields[i]) && fields[i].value.value == x
    decreases |fields|
  {
    if |fields| == 0 then []
    else
      var rest := IngredientList(fields[1..]);
      assert forall x :: x in rest ==>
        exists i :: 1 <= i < |fields| && IsIngredient(fields[i]) && fields[i].value.value == x by {
        forall x | x in rest
          ensures exists i :: 1 <= i < |fields| && IsIngredient(fields[i]) && fields[i].value.value == x
        {
          var j :| 0 <= j < |fields[1..]| && IsIngredient(fields[1..][j]) && fields[1..][j].value.value == x;
          assert fields[j + 1] == fields[1..][j];
        }
      }
      if IsIngredient(fields[0]) then [fields[0].value.value] + rest else rest
  }

  /** The ingredient list keeps key order: the list of a record split in two
      is the first part's list followed by the second part's. */
  lemma {:induction false} IngredientListAppend(a: seq<Field>, b: seq<Field>)
    ensures IngredientList(a + b) == IngredientList(a) + IngredientList(b)
    decreases |a|
  {
    if |a| == 0 {
      assert a + b == b;
    } else {
      assert (a + b)[1..] == a[1..] + b;
      IngredientListAppend(a[1..], b);
    }
  }

  /** The tag view's text, `strTags.split(',').join(', ')`: every comma of
      the tag string followed by a space, and nothing else changed. */
  function TagText(tags: string): (r: string)
    ensures r == ReplaceChar(tags, ',', ", ")
    ensures |r| == |tags| + Count(tags, ',')
  {
    JoinSplitReplaces(tags, ',', ", ");
    ReplaceCharLength(tags);
    Join(Split(tags, ','), ", ")
  }

  lemma {:induction false} ReplaceCharLength(s: string)
    ensures |ReplaceChar(s, ',', ", ")| == |s| + Count(s, ',')
    decreases |s|
  {
    if |s| > 0 {
      ReplaceCharLength(s[1..]);
    }
  }

  /** The meal has a tag string worth showing. */
  predicate HasTags(m: Meal) {
    Truthy(Get(m, "strTags"))
  }

  /** One block of the sidebar under the view buttons. */
  datatype Block =
    | InstructionsBlock(instructions: Option<string>)
    | IngredientsBlock(items: seq<string>)
    | TagsBlock(tagText: string)
    | NoTagsBlock

  /** The blocks the four view conditions render, in page order. Exactly one
      condition holds for each view; under the tag view it is the tag text when
      the meal has tags and the "no tags" message otherwise. */
  function Blocks(m: Meal, view: View): (r: seq<Block>)
    ensures |r| == 1
    ensures r[0].InstructionsBlock? <==> view == Details
    ensures r[0].IngredientsBlock? <==> view == Ingredients
    ensures view == Tags ==> (r[0].TagsBlock? <==> HasTags(m)) && (r[0].NoTagsBlock? <==> !HasTags(m))
    ensures r[0].InstructionsBlock? ==> r[0].instructions == Get(m, "strInstructions")
    ensures r[0].IngredientsBlock? ==> r[0].items == IngredientList(m.fields)
    ensures r[0].TagsBlock? ==> r[0].tagText == ReplaceChar(Get(m, "strTags").value, ',', ", ")
  {
    (if view == Details then [InstructionsBlock(Get(m, "strInstructions"))] else [])
    + (if view == Ingredients then [IngredientsBlock(IngredientList(m.fields))] else [])
    + (if view == Tags && HasTags(m) then [TagsBlock(TagText(Get(m, "strTags").value))] else [])
    + (if view == Tags && !HasTags(m) then [NoTagsBlock] else [])
  }

  /** The sidebar: meal name, thumbnail and the view's block. */
  datatype Panel = Panel(title: Option<string>, image: Option<string>, blocks: seq<Block>)

  /** The sidebar is shown exactly when a meal is selected. */
  function Render(selected: Option<Meal>, view: View): (p: Option<Panel>)
    ensures p.Some? <==> selected.Some?
    ensures p.Some? ==>
      p.value.title == Get(selected.value, "strMeal") && p.value.image == Get(selected.value, "strMealThumb")
      && p.value.blocks == Blocks(selected.value, view)
  {
    match selected
    case None => None
    case Some(m) => Some(Panel(Get(m, "strMeal"), Get(m, "strMealThumb"), Blocks(m, view)))
  }

  /** A record with ingredients "Salt", "" and "Pepper" lists "Salt" and
      "Pepper". */
  lemma IngredientListExample()
    ensures IngredientList([Field("strIngredient1", Some("Salt")), Field("strIngredient2", Some("")),
                            Field("strIngredient3", Some("Pepper"))]) == ["Salt", "Pepper"]
  {
    var f1, f2, f3 := Field("strIngredient1", Some("Salt")), Field("strIngredient2", Some("")),
                      Field("strIngredient3", Some("Pepper"));
    assert "strIngredient1"[..13] == IngredientPrefix;
    assert "strIngredient3"[..13] == IngredientPrefix;
    assert IsIngredient(f1) && !IsIngredient(f2) && IsIngredient(f3);
    assert [f1, f2, f3][1..] == [f2, f3];
    assert [f2, f3][1..] == [f3];
    assert [f3][1..] == [];
    assert IngredientList([f3]) == ["Pepper"];
    assert IngredientList([f2, f3]) == ["Pepper"];
  }

  /** Two tags joined by a comma show with a comma and a space between. */
  lemma TagTextOfTwo(a: string, b: string)
    requires ',' !in a && ',' !in b
    ensures TagText(a + [','] + b) == a + ", " + b
  {
    ReplaceCharSplit(a, ',', b, ", ");
    ReplaceCharAbsent(a, ',', ", ");
    ReplaceCharAbsent(b, ',', ", ");
  }

  /** Tags "Soup,Spicy" show as "Soup, Spicy". */
  lemma TagTextExample()
    ensures TagText("Soup,Spicy") == "Soup, Spicy"
  {
    var soup, spicy := "Soup", "Spicy";
    assert "Soup,Spicy" == soup + [','] + spicy;
    assert soup + ", " + spicy == "Soup, Spicy";
    TagTextOfTwo(soup, spicy);
  }

  /** A record without a `strTags` property shows the "no tags" message under
      the tag view. */
  lemma NoTagsExample()
    ensures Blocks(Meal([Field("strMeal", Some("Soup"))]), Tags) == [NoTagsBlock]
  {
    var f := Field("strMeal", Some("Soup"));
    assert f.key[3] != "strTags"[3];
    assert Lookup([f], "strTags") == None;
  }
}

=== FILE: strings.dfy ===
/** The JavaScript string operations the explorer relies on: `startsWith`,
    `replace` with a string pattern (first occurrence only), `split` on a
    one-character separator and `Array.prototype.join`. */
module Strings {

  /** `s.startsWith(prefix)` */
  predicate StartsWith(s: string, prefix: string) {
    |prefix| <= |s| && s[..|prefix|] == prefix
  }

  /** `s.startsWith(prefix)` holds exactly when `s` is at least as long as
      `prefix` and agrees with it character by character. */
  lemma StartsWithPointwise(s: string, prefix: string)
    ensures StartsWith(s, prefix) <==>
      |prefix| <= |s| && forall i :: 0 <= i < |prefix| ==> s[i] == prefix[i]
  {
    if |prefix| <= |s| && forall i :: 0 <= i < |prefix| ==> s[i] == prefix[i] {
      assert s[..|prefix|] == prefix;
    }
  }

  /** `pat` occurs somewhere in `s` (`s.includes(pat)`). */
  predicate Contains(s: string, pat: string)
    decreases |s|
  {
    StartsWith(s, pat) || (|s| > 0 && Contains(s[1..], pat))
  }

  /** `pat` occurs in `s` at index `k`, and at no index before `k`. */
  predicate FirstOccurrence(s: string, pat: string, k: int) {
    0 <= k <= |s| && StartsWith(s[k..], pat)
    && forall j :: 0 <= j < k ==> !StartsWith(s[j..], pat)
  }

  /** `s.replace(pat, rep)` with a string pattern: only the first occurrence of
      `pat` is replaced; when there is none, `s` comes back as it was. This is
      JavaScript's `replace` for a replacement string without `$` patterns
      (`$&`, `$$` and the like are expanded by JavaScript and not here), which
      covers the empty replacement the explorer passes. */
  function ReplaceFirst(s: string, pat: string, rep: string): (r: string)
    ensures !Contains(s, pat) ==> r == s
    ensures Contains(s, pat) ==> |r| == |s| - |pat| + |rep|
    ensures Contains(s, pat) ==>
      exists k :: FirstOccurrence(s, pat, k) && r == s[..k] + rep + s[k + |pat|..]
    decreases |s|
  {
    if StartsWith(s, pat) then
      FirstOccurrenceAtStart(s, pat, rep);
      rep + s[|pat|..]
    else if |s| == 0 then s
    else
      var rest := ReplaceFirst(s[1..], pat, rep);
      if Contains(s[1..], pat) then
        var k :| FirstOccurrence(s[1..], pat, k) && rest == s[1..][..k] + rep + s[1..][k + |pat|..];
        FirstOccurrenceStep(s, pat, rep, k);
        [s[0]] + rest
      else
        [s[0]] + rest
  }

  /** A string that starts with the pattern has its first occurrence at 0. */
  lemma FirstOccurrenceAtStart(s: string, pat: string, rep: string)
    requires StartsWith(s, pat)
    ensures FirstOccurrence(s, pat, 0) && s[..0] + rep + s[0 + |pat|..] == rep + s[|pat|..]
  {
    assert s[0..] == s;
    assert s[..0] + rep == rep;
  }

  /** A first occurrence in the tail of `s`, when `s` itself does not start
      with the pattern, is a first occurrence in `s` one index later, and the
      replacement around it moves along with it. */
  lemma FirstOccurrenceStep(s: string, pat: string, rep: string, k: int)
    requires |s| > 0 && !StartsWith(s, pat) && FirstOccurrence(s[1..], pat, k)
    ensures FirstOccurrence(s, pat, k + 1)
    ensures [s[0]] + (s[1..][..k] + rep + s[1..][k + |pat|..]) == s[..k + 1] + rep + s[k + 1 + |pat|..]
  {
    assert s[k + 1..] == s[1..][k..];
    forall j | 0 <= j < k + 1 ensures !StartsWith(s[j..], pat) {
      if j > 0 {
        assert s[j..] == s[1..][j - 1..];
      }
    }
    assert [s[0]] + s[1..][..k] == s[..k + 1];
    assert s[1..][k + |pat|..] == s[k + 1 + |pat|..];
  }

  /** Replacing the first occurrence of a prefix removes exactly that prefix. */
  lemma ReplaceFirstOfPrefix(pat: string, x: string, rep: string)
    ensures ReplaceFirst(pat + x, pat, rep) == rep + x
  {
    assert (pat + x)[..|pat|] == pat;
    assert (pat + x)[|pat|..] == x;
  }

  /** Number of occurrences of character `c` in `s`. */
  function Count(s: string, c: char): nat
    decreases |s|
  {
    if |s| == 0 then 0 else (if s[0] == c then 1 else 0) + Count(s[1..], c)
  }

  /** `s.split(sep)` for a one-character separator: the pieces between
      separators, including empty ones at either end or between two adjacent
      separators; an empty string splits into one empty piece. */
  function Split(s: string, sep: char): (parts: seq<string>)
    ensures |parts| == Count(s, sep) + 1
    ensures forall p :: p in parts ==> sep !in p
    decreases |s|
  {
    if |s| == 0 then [""]
    else if s[0] == sep then [""] + Split(s[1..], sep)
    else
      var rest := Split(s[1..], sep);
      [[s[0]] + rest[0]] + rest[1..]
  }

  /** Sum of the lengths of `parts`. */
  function TotalLength(parts: seq<string>): nat
    decreases |parts|
  {
    if |parts| == 0 then 0 else |parts[0]| + TotalLength(parts[1..])
  }

  /** `parts.join(sep)`: the pieces in order with one `sep` between each two
      neighbours, none before the first or after the last. */
  function Join(parts: seq<string>, sep: string): (r: string)
    ensures |parts| == 0 ==> r == ""
    ensures |parts| > 0 ==> |r| == TotalLength(parts) + (|parts| - 1) * |sep|
    ensures |parts| > 0 ==> StartsWith(r, parts[0])
    ensures |parts| > 1 ==> StartsWith(r[|parts[0]|..], sep)
    decreases |parts|
  {
    if |parts| == 0 then ""
    else if |parts| == 1 then parts[0]
    else parts[0] + sep + Join(parts[1..], sep)
  }

  /** Joining two non-empty lists of pieces is joining each and putting one
      separator between them: with the one-piece case, every piece appears in
      order with exactly one separator in each gap. */
  lemma {:induction false} JoinAppend(a: seq<string>, b: seq<string>, sep: string)
    requires |a| > 0 && |b| > 0
    ensures Join(a + b, sep) == Join(a, sep) + sep + Join(b, sep)
    decreases |a|
  {
    assert (a + b)[0] == a[0];
    if |a| == 1 {
      assert (a + b)[1..] == b;
    } else {
      assert (a + b)[1..] == a[1..] + b;
      JoinAppend(a[1..], b, sep);
      calc {
        Join(a + b, sep);
        a[0] + sep + Join(a[1..] + b, sep);
        a[0] + sep + (Join(a[1..], sep) + sep + Join(b, sep));
        (a[0] + sep + Join(a[1..], sep)) + sep + Join(b, sep);
      }
    }
  }

  /** Reference definition: every occurrence of `c` in `s` replaced by `with`,
      one character at a time. */
  function ReplaceChar(s: string, c: char, with: string): (r: string)
    ensures c !in with ==> c !in r
    decreases |s|
  {
    if |s| == 0 then ""
    else (if s[0] == c then with else [s[0]]) + ReplaceChar(s[1..], c, with)
  }

  /** A string without `c` is left as it is. */
  lemma {:induction false} ReplaceCharAbsent(s: string, c: char, with: string)
    requires c !in s
    ensures ReplaceChar(s, c, with) == s
    decreases |s|
  {
    if |s| > 0 {
      assert s[0] != c;
      ReplaceCharAbsent(s[1..], c, with);
      assert s == [s[0]] + s[1..];
    }
  }

  /** Replacement works piece by piece around one occurrence of `c`. */
  lemma {:induction false} ReplaceCharSplit(a: string, c: char, b: string, with: string)
    ensures ReplaceChar(a + [c] + b, c, with) == ReplaceChar(a, c, with) + with + ReplaceChar(b, c, with)
    decreases |a|
  {
    var s := a + [c] + b;
    if |a| == 0 {
      assert s[1..] == b;
    } else {
      assert s[1..] == a[1..] + [c] + b;
      ReplaceCharSplit(a[1..], c, b, with);
    }
  }

  /** Prepending a character to the first piece of a join prepends it to the
      joined string. */
  lemma {:induction false} JoinConsFirst(ch: char, parts: seq<string>, sep: string)
    requires |parts| > 0
    ensures Join([[ch] + parts[0]] + parts[1..], sep) == [ch] + Join(parts, sep)
  {
    var parts' := [[ch] + parts[0]] + parts[1..];
    assert |parts'| == |parts| && parts'[0] == [ch] + parts[0];
    assert parts'[1..] == parts[1..];
    if |parts| > 1 {
      calc {
        Join(parts', sep);
        parts'[0] + sep + Join(parts'[1..], sep);
        ([ch] + parts[0]) + sep + Join(parts[1..], sep);
        [ch] + (parts[0] + sep + Join(parts[1..], sep));
        [ch] + Join(parts, sep);
      }
    }
  }

  /** Splitting on `c` and joining with `with` replaces every `c` by `with`. */
  lemma {:induction false} JoinSplitReplaces(s: string, c: char, with: string)
    ensures Join(Split(s, c), with) == ReplaceChar(s, c, with)
    decreases |s|
  {
    if |s| == 0 {
    } else if s[0] == c {
      var rest := Split(s[1..], c);
      JoinSplitReplaces(s[1..], c, with);
      assert ([""] + rest)[1..] == rest;
      assert Join([""] + rest, with) == "" + with + Join(rest, with);
    } else {
      var rest := Split(s[1..], c);
      JoinSplitReplaces(s[1..], c, with);
      JoinConsFirst(s[0], rest, with);
    }
  }

  /** Replacing a character by itself is the identity. */
  lemma {:induction false} ReplaceCharBySelf(s: string, c: char)
    ensures ReplaceChar(s, c, [c]) == s
    decreases |s|
  {
    if |s| > 0 {
      ReplaceCharBySelf(s[1..], c);
      assert s == [s[0]] + s[1..];
    }
  }

  /** `split` and `join` with the same one-character separator are inverse:
      the pieces of a split always join back to the original string. */
  lemma JoinSplitRoundTrip(s: string, c: char)
    ensures Join(Split(s, c), [c]) == s
  {
    JoinSplitReplaces(s, c, [c]);
    ReplaceCharBySelf(s, c);
  }
}
